=== FILE: README.md ===
# DeepLeek core, modelled in Dafny

DeepLeek is a small retrieval-augmented generation (RAG) system with two
Streamlit chat front ends. This project models its decision and
bookkeeping logic as pure Dafny functions and proves properties of them.
The libraries it drives (LangChain, Chroma, HuggingFace, PyTorch) and
Streamlit's rendering are not modelled.

- `wrappers.dfy`: `Option` and `Result`.
- `text.dfy`: the Python string operations the core relies on.
  - `sep.join(parts)`, `s.split(sep)` and `split(...)[-1]`.
  - `s.strip()` with Python's whitespace set, and slicing `s[n:]`.
  - `f"{n}"` for a natural number.
- `documents.py` (`documents.dfy`):
  - Choice of embedder. An argument equal to the string "OpenAI" selects OpenAI.
  - Anything else selects a local HuggingFace model, with exactly one
    fallback load from a fixed path.
  - `get_vecstore` forwards the splitter parameters. The splitter, the
    embedder constructors and `Chroma.from_documents` are parameters that
    return `Success | Failure`.
- `generator.py` (`generator.dfy`): `SystemSavantModel.gen_resp` and `safety_check_output`.
  - A safety gate on the prompt, one model call and a safety gate on the output.
  - Then trimming of the echoed prompt: split on "user", keep the last
    piece, strip it, and drop `len(prompt)` characters.
  - The checkers and the model are functions given as parameters.
- `rag.py` (`rag.dfy`): the `RAG` object.
  - The fixed custom prompt template, and construction.
  - The chain retrieve → trace → format → render → trace → generate → parse,
    written as plain function composition.
  - The two trace hooks, and the five-field record of `gen_resp_dict`.
- `ordered_dict.dfy`, `messages.dfy`: Python's insertion-ordered `dict`,
  `list.index`, and the `{"role", "message"}` records of the chat pages.
- `studentview.py` (`student_view.dfy`): the course/thread page's session
  state and its transitions.
  - Initialisation, course radio, thread select box, "Create New Thread",
    and chat input.
- `teacherview.py` (`teacher_view.dfy`): the multi-session page's session
  state and its transitions.
  - Initialisation, chat radio, "New Chat", and chat input.

Three places in the code fall short of what the code itself evidently means:
- `safety_check_output` returns `None` to suppress an unsafe output
  (rag_utils/generator.py line 200), the same signal `gen_resp` returns for
  an unsafe prompt (line 143). `gen_resp` then calls `.split` on that
  `None` and raises (`Generator.GenResp`).
- `gen_resp_dict` reports `self.template` (rag_utils/rag.py line 131),
  which `_custom_prompt` sets at line 64. `__init__` resets it to `None`
  at line 47, so the field is always `None` (`Rag.Construct`).
- The course radio of studentview.py changes `current_course` at line 38
  but keeps `current_thread`, so after switching away from a thread the
  new course lacks, `threads.index` at line 48 raises
  (`StudentView.CourseSwitchStrandsThread`). The corrected switch,
  `StudentView.SelectCourseIntended`, selects the new course's first thread.

Each mistake is modelled twice: once as written and once as evidently
intended, with a lemma relating the two. See "## Findings".

## Model

| member | source | states |
|---|---|---|
| `Documents.GetEmbedder` | rag_utils/documents.py:70-84 | The OpenAI embedder is chosen iff the argument is the string "OpenAI". Otherwise the HuggingFace model "sentence-transformers/all-mpnet-base-v2" on device "cpu" is loaded first. A second load is attempted iff that load failed; it uses the fixed local path and the same kwargs. The last load's success or error is the call's result, so a failed fallback propagates. |
| `Documents.GetVecstore` | rag_utils/documents.py:39-66 | Splitting uses exactly the given `chunk_size` and `chunk_overlap` (defaults 1000 and 200) with `add_start_index`. A splitter error is returned before any embedder is loaded, and an embedder error before the store is built. Otherwise the result is the store over the split chunks with the embedder `_get_embedder` chose, or the error `Chroma.from_documents` raised. |
| `Documents.DefaultVecstore` | rag_utils/documents.py:54-66 | Called with its defaults, `get_vecstore` succeeds iff splitting with 1000/200, loading the OpenAI embedder and building the store all succeed, and the store then holds those chunks with the OpenAI embedder. |
| `Documents.DemoArgumentTakesHuggingFaceBranch` | rag_utils/documents.py:72-78 | The embedder object the demo passes (run_rag_demo.py line 35) is not the string "OpenAI", so it takes the HuggingFace branch and never yields the OpenAI embedder. |
| `Generator.Verdicts` | rag_utils/generator.py:185-188 | One verdict per checker, in checker order: verdict `i` is checker `i` applied to the text in the given context. |
| `Generator.AllSafeIff` | rag_utils/generator.py:140 | `all([r[1] for r in results])` holds iff every verdict's second component is true; in particular it holds for no checkers. |
| `Generator.AllSafeVerdicts` | rag_utils/generator.py:189 | The gate over a checker list passes iff every checker judges the text safe in the given context. |
| `Generator.SafetyCheckOutput` | rag_utils/generator.py:184-200 | The result is the output unchanged iff every checker, called as an agent reply to the prompt, judges it safe; otherwise `None`. |
| `Generator.TrimSpec` | rag_utils/generator.py:178 | The trimmed answer comes from the text after the last "user": a suffix of the output, directly preceded by "user", and the whole output if "user" is absent; that text contains no "user". It is stripped, and its first `len(prompt)` characters are dropped. The answer is "" when the prompt is at least as long as the stripped text. |
| `Generator.GenResp` | rag_utils/generator.py:127-182 | A prompt object is replaced by its `.text` first. The result is `None` iff some checker rejects the prompt. It raises iff the prompt passes and some checker, called with the same list and the original prompt, rejects the output. Otherwise it is the trimmed model output. |
| `Generator.GenRespCrashIsSplitOnNone` | rag_utils/generator.py:177-178 | When `gen_resp` raises, the exception is the `AttributeError` of calling `.split` on `None`, never another fault. |
| `Generator.GenRespIntended` | rag_utils/generator.py:177-182 | The corrected generator never raises. It answers iff both gates pass, and the answer is the trimmed model output. |
| `Generator.IntendedAgreesUnlessOutputVetoed` | rag_utils/generator.py:177-178 | The corrected generator agrees with the code on every call that does not raise. The code raises exactly when the corrected version suppresses an output whose prompt passed. |
| `Generator.UnsafeOutputRaises` | rag_utils/generator.py:177-178 | Concrete case: one checker passes the prompt "hi" and rejects every output. The code then raises on `None.split`, while the corrected version returns `None`. |
| `Generator.RefusedPromptIgnoresModel` | rag_utils/generator.py:139-143 | A refused prompt gives `None` whatever the model would produce: the model is not consulted. |
| `Generator.NoCheckersAlwaysAnswer` | rag_utils/generator.py:139-140 | With no checkers both gates pass and the trimmed model output is returned. |
| `Generator.PromptValueActsAsItsText` | rag_utils/generator.py:129-130 | A prompt object behaves exactly as the string in its `.text`. |
| `OrderedDict.Put` | studentview.py:55-57 | Assigning to a dict key stores the value. A new key is appended to the key order; an existing key keeps its place. |
| `OrderedDict.IndexOf` | studentview.py:48 | `list.index` gives the first position holding the value, and raises iff the value is absent. |
| `Rag.RenderPlaceholdersIsText` | rag_utils/rag.py:74-75 | Rendering a template with each placeholder filled by its own name gives back the format string: rendering changes only the placeholders. |
| `Rag.CustomTemplateShape` | rag_utils/rag.py:64-72 | The custom template's text is the source's format string. `{context}` occurs in it exactly once, `{question}` exactly once and after it, and the string ends with "Answer:". |
| `Rag.RenderCustom` | rag_utils/rag.py:64-75 | The rendered custom prompt is the instructions, the context, "\nQuestion:\n", the question and "\nAnswer:", in that order and each verbatim. |
| `Rag.FormatDocs` | rag_utils/rag.py:58-59 | The context of no documents is "". Of one document it is exactly that document's content. Otherwise its length is the sum of the contents' lengths plus 2·(n−1). |
| `Rag.FormatDocsInOrder` | rag_utils/rag.py:59 | Each document's content appears verbatim at its offset, in retrieval order, followed by exactly one "\n\n" unless it is the last. |
| `Text.JoinLength` | rag_utils/rag.py:59 | `sep.join(parts)` is as long as the parts plus one separator between each consecutive pair. |
| `Text.JoinPlaces` | rag_utils/rag.py:59 | In `sep.join(parts)` every part sits verbatim at its offset, and every part but the last is followed by exactly one separator. |
| `Rag.CustomPromptOn` | rag_utils/rag.py:61-75 | `_custom_prompt` stores the format string of the template it returns and changes nothing else. |
| `Rag.Construct` | rag_utils/rag.py:28-52 | As written, the constructed object has template `None` for every prompt source. Both traces are `None`. The prompt is the custom one for "custom" and the pulled one otherwise (the prompt source defaults to "rlm/rag-prompt"), and the cache directory (default "") is kept. |
| `Rag.ConstructIntended` | rag_utils/rag.py:40-49 | The corrected constructor keeps the custom format string as the template for "custom", and has no template for a pulled prompt. Both traces start as `None`. |
| `Rag.ConstructDropsTemplate` | rag_utils/rag.py:40-47 | `_custom_prompt` does store the format string, yet the object built from "custom" has no template; the corrected constructor keeps it. |
| `Rag.TraceRetrieved` | rag_utils/rag.py:95-102 | The documents pass through unchanged. One `{page_content, metadata}` entry per document is recorded, in the same order, and nothing else changes. |
| `Rag.TracePrompted` | rag_utils/rag.py:104-111 | The prompt passes through unchanged, its string form is recorded, and nothing else changes. |
| `Rag.Invoke` | rag_utils/rag.py:77-89 | The retriever's error propagates before anything is traced. Otherwise the documents are traced, and the prompt rendered from the formatted context and the query is traced. The generator receives that same prompt. The chain succeeds iff the generator answers, and returns the answer's text. A generator that returns `None` fails the chain with `NullGeneration`, and a generator exception reaches the caller unchanged as `GeneratorRaised`. Prompt, template and cache directory are unchanged. |
| `Rag.GenRespDict` | rag_utils/rag.py:117-135 | On success the result has exactly the keys "prompt template", "docs", "input", "response" and "time". The template field is the object's template; the docs and input fields are the traces of this query. The response field is the chain's answer, and "time" ends with " sec". It fails iff the chain fails, with the chain's own error, and either way the object afterwards is the one the chain left, traces included. |
| `Rag.TemplateFieldAlwaysNull` | rag_utils/rag.py:131 | For a constructed object the "prompt template" field is `None` whatever the prompt source. |
| `Rag.IntendedTemplateFieldReported` | rag_utils/rag.py:131 | With the corrected constructor and the custom prompt, the field is the custom format string. |
| `Rag.LocalGeneratorSeesTracedPrompt` | rag_utils/rag.py:85-86 | With the local generator wired in, the safety checks and the model see exactly the prompt string recorded in the trace. A refused prompt makes the chain fail with a null generation. |
| `Text.Split` | rag_utils/generator.py:178 | `s.split(sep)` always has at least one piece. |
| `Text.SplitJoin` | rag_utils/generator.py:178 | Joining the pieces of `s.split(sep)` with `sep` gives back `s`. |
| `Text.LastPieceIsTextAfterLastSeparator` | rag_utils/generator.py:178 | `s.split(sep)[-1]` is a suffix of `s` without `sep`. It is all of `s` when `sep` is absent; otherwise it is immediately preceded by `sep`. |
| `Text.Strip` | rag_utils/generator.py:178 | `s.strip()` is an infix of `s` with only whitespace before and after it. It neither starts nor ends with whitespace. |
| `Text.NatToString` | teacherview.py:26 | `f"{n}"` is a non-empty string of decimal digits. |
| `Text.ParseNatToString` | teacherview.py:26 | Reading back the decimal digits of `f"{n}"` gives `n`. |
| `Text.NatToStringInjective` | teacherview.py:26 | Different numbers have different decimal strings. |
| `StudentView.InitialWelcomes` | studentview.py:9-23 | Each initial thread holds exactly one assistant message, "Welcome to <course> <thread>!". |
| `StudentView.Init` | studentview.py:7-31 | The initial courses are Math 101 {General Discussion, Homework Help} and History 202 {General Discussion}, in that order. The selected course is the first course and the selected thread its first thread. Every thread is non-empty and starts with an assistant message. |
| `StudentView.SelectCourse` | studentview.py:36-38 | The course radio changes only the selected course. The selected thread stays as it was, so it need not belong to the new course. |
| `StudentView.ThreadIndex` | studentview.py:47-48 | `threads.index(current_thread)` succeeds iff the selected thread belongs to the selected course, and then gives its position. |
| `StudentView.SelectCourseIntended` | studentview.py:36-38 | The corrected course switch also selects the new course's first thread, so the selection is always valid. |
| `StudentView.SelectThread` | studentview.py:47-49 | The select box changes only the selected thread, and keeps the state well formed. |
| `StudentView.CreateThread` | studentview.py:51-61 | A title is accepted iff it is non-empty and not yet a thread of the selected course. An accepted title becomes a new last thread holding one welcome "Welcome to <title>!", and is selected; no other course changes. A rejected title leaves the state unchanged. |
| `StudentView.Send` | studentview.py:72-82 | A non-empty input appends exactly the user's message and then "You said: <input>" to the selected thread. Nothing else changes. |
| `StudentView.EventsKeepThreadsWellFormed` | studentview.py:33-83 | After any sequence of widget events, the set of courses is the same and every thread is non-empty and starts with an assistant message. |
| `StudentView.CourseSwitchStrandsThread` | studentview.py:37-48 | Concrete case: after choosing "Homework Help" in Math 101, switching to History 202 leaves a selected thread that course lacks, so the thread lookup raises. The corrected switch leaves a valid selection. |
| `TeacherView.ChatNameInjective` | teacherview.py:26 | Different numbers give different "Chat n" names. |
| `TeacherView.Init` | teacherview.py:7-13 | The initial state is the single session "Chat 1", holding one greeting, and it is selected. |
| `TeacherView.Select` | teacherview.py:19-22 | Selecting a chat changes only the selected session name. |
| `TeacherView.NextNameIsFresh` | teacherview.py:25-27 | When the sessions are "Chat 1" .. "Chat n", the name "Chat n+1" is not yet used. |
| `TeacherView.NewChat` | teacherview.py:24-31 | "New Chat" selects "Chat <count+1>", holding one greeting. From a reachable state this name is new: it is appended, the count grows by exactly one, and every existing session is unchanged. |
| `TeacherView.Send` | teacherview.py:40-53 | A non-empty input appends exactly the user's message and then "You said: <input>" to the selected session only. |
| `TeacherView.ReachableIsCanonical` | teacherview.py:7-53 | After any sequence of events from a canonical state such as first load, the session names are "Chat 1" .. "Chat n" in order. The selected session exists, and every session starts with the greeting. |
| `TeacherView.EventsOnlyAppend` | teacherview.py:27-50 | Along any sequence of events no session disappears, and every session's messages only grow at the end. |

## Left out

- Loading web pages, BeautifulSoup filtering, text splitting, building the Chroma index and computing embeddings: library code. The splitter, the embedder constructors and `Chroma.from_documents` appear only as parameters that may fail; the web loader is not modelled.
- The `print` logging at rag_utils/documents.py lines 80 and 82 and rag_utils/generator.py line 142: console output only, with no effect on results.
- `rag_utils/retriever.py`: a pass-through to the vector store's retriever. The retriever is a parameter of `Rag.Invoke`.
- `OpenAIGenerator` and `hub.pull`: remote API calls. A pulled prompt is a parameter of `Rag.Construct`.
- Seeding, model loading, tokenisation with truncation, device placement and `model.generate`: the model is one function from prompt text to decoded text.
- Wall-clock timing and `round(..., 3)`: the elapsed seconds are a string parameter of `Rag.GenRespDict`, and only the " sec" suffix is stated.
- `save_resp`: file I/O.
- LangChain's Runnable operators: the chain is written as explicit composition in the same stage order.
- `PromptTemplate`'s general f-string parsing: a template is a list of literal pieces and the two placeholders, which covers the custom template. The message structure of chat prompts from the hub is not modelled.
- `Rag.LocalGeneratorSeesTracedPrompt`: holds for templates that render to a string prompt value, such as the custom one. A prompt pulled from the hub is modelled as such a template too, but the default `rlm/rag-prompt` is a chat prompt: it renders to a chat prompt value, which has no `.text`, so `gen_resp` (rag_utils/generator.py line 130) raises on it. That failure is not modelled.
- `Rag.Invoke`: a generator result of `None` (refused prompt) reaching `StrOutputParser` is modelled as a failure of the chain (`NullGeneration`). The parser is library code and is not part of this model.
- `Rag.TracePrompted`: modelled only for string prompt values, the kind a `PromptTemplate` produces. It is stated weaker than `to_string()` for every message type.
- `Generator.GenResp`: the answer is the message's text. The `AIMessage` wrapper is not modelled.
- Streamlit rendering, `st.error`, widget state and `experimental_rerun` in both chat pages: only the session-state transitions are modelled. No chat input is modelled as "", since both `None` and "" are falsy in the source.
- `StudentView.Step` and `TeacherView.Step`: widgets only offer existing courses, threads and sessions, so other choices are ignored. Once the selected thread is not in the selected course the page raises while drawing the thread list, so thread-select, "Create New Thread" and chat-input events leave the state unchanged; the course radio is drawn before that point and still works, so choosing a course applies as usual.
- `run_rag_demo.py`: top-level wiring, apart from the embedder argument it passes.

## Findings

| source | as written | input that shows it | evidently intended | confidence | as-written member | corrected member |
|---|---|---|---|---|---|---|
| rag_utils/rag.py:40-47 | `__init__` resets `self.template = None` after `_custom_prompt` has stored the format string, so `gen_resp_dict` always reports `"prompt template": None` (line 131) | `RAG(retriever, generator, prompt_src="custom")` | initialise the template before choosing the prompt, so the custom format string is reported | not executed | `Rag.ConstructDropsTemplate` | `Rag.ConstructIntended` |
| rag_utils/generator.py:177-178 | when `safety_check_output` returns `None`, `safe_output.split("user")` raises `AttributeError` | a checker list that passes the prompt and rejects the model's output | suppress an unsafe output like an unsafe prompt and return `None` | not executed | `Generator.UnsafeOutputRaises` | `Generator.GenRespIntended` |
| studentview.py:37-38 | the course radio changes `current_course` but keeps `current_thread`, so `threads.index(current_thread)` at line 48 raises `ValueError` | select "Homework Help" in Math 101, then select History 202 | select the new course's first thread when the course changes | not executed | `StudentView.CourseSwitchStrandsThread` | `StudentView.SelectCourseIntended` |

=== FILE: documents.dfy ===
/** Document store construction (`rag_utils/documents.py`): the splitter
    parameters handed to the text splitter, and the choice of embedder with
    its single fallback load. Loading web pages, splitting text, computing
    embeddings and building the Chroma index are done by libraries; they
    appear here as function parameters whose results are `Success | Failure`. */
module Documents {
  import opened Wrappers

  /** A metadata value: text such as `source`, or a number such as the
      `start_index` the splitter adds. */
  datatype MetaValue = MetaText(text: string) | MetaNumber(number: int)

  /** A LangChain document: page text plus its metadata. */
  datatype Doc = Doc(pageContent: string, metadata: map<string, MetaValue>)

  /** The `embedder` argument of `get_vecstore`: a string, or any other
      Python object (run_rag_demo.py passes an `OpenAIEmbeddings()` instance). */
  datatype EmbedderArg = Named(name: string) | Instance(className: string)

  /** Which embedding model a load attempt asks for. */
  datatype EmbedderSpec =
    | OpenAIEmbedder
    | HuggingFace(modelName: string, modelKwargs: map<string, string>)

  /** The record of one `_get_embedder` call: every load attempted, in
      order, and what the call returned or raised. */
  datatype Selection = Selection(attempts: seq<EmbedderSpec>, result: Result<EmbedderSpec, string>)

  const PrimaryModel: string := "sentence-transformers/all-mpnet-base-v2"
  const FallbackModelPath: string := "/kaggle/input/sentence-transformers/minilm-l6-v2/all-MiniLM-L6-v2"
  const CpuKwargs: map<string, string> := map["device" := "cpu"]

  /** `_get_embedder`: the OpenAI embedder for exactly the string "OpenAI";
      otherwise the local HuggingFace model, and on any exception one more
      load from a fixed local path whose own failure is not caught.
      `load` stands for the embedder constructors, which may raise. */
  function GetEmbedder(arg: EmbedderArg, load: EmbedderSpec -> Result<(), string>): (r: Selection)
    ensures 1 <= |r.attempts| <= 2
    ensures (r.attempts[0] == OpenAIEmbedder) <==> arg == Named("OpenAI")
    ensures arg != Named("OpenAI") ==> r.attempts[0] == HuggingFace(PrimaryModel, CpuKwargs)
    ensures |r.attempts| == 2 <==> (arg != Named("OpenAI") && load(HuggingFace(PrimaryModel, CpuKwargs)).Failure?)
    ensures |r.attempts| == 2 ==> r.attempts[1] == HuggingFace(FallbackModelPath, r.attempts[0].modelKwargs)
    ensures var last := r.attempts[|r.attempts| - 1];
      && (r.result.Success? <==> load(last).Success?)
      && (r.result.Success? ==> r.result.value == last)
      && (r.result.Failure? ==> r.result.error == load(last).error)
  {
    if arg == Named("OpenAI") then
      Selection([OpenAIEmbedder], Loaded(OpenAIEmbedder, load))
    else
      var primary := HuggingFace(PrimaryModel, CpuKwargs);
      match load(primary)
      case Success(_) => Selection([primary], Success(primary))
      case Failure(_) =>
        var fallback := HuggingFace(FallbackModelPath, CpuKwargs);
        Selection([primary, fallback], Loaded(fallback, load))
  }

  /** One constructor call whose exception propagates. */
  function Loaded(spec: EmbedderSpec, load: EmbedderSpec -> Result<(), string>): Result<EmbedderSpec, string>
  {
    match load(spec)
    case Success(_) => Success(spec)
    case Failure(e) => Failure(e)
  }

  /** The keyword arguments `_split` gives `RecursiveCharacterTextSplitter`. */
  datatype SplitterConfig = SplitterConfig(chunkSize: int, chunkOverlap: int, addStartIndex: bool)

  /** What `Chroma.from_documents` is called with. */
  datatype VectorStore = VectorStore(chunks: seq<Doc>, embedding: EmbedderSpec)

  /** `get_vecstore`: split the loaded documents with the given parameters
      (defaults 1000 and 200), then build the store over the chunks with the
      embedder `_get_embedder` picks. Splitting happens first, so a splitter
      error means no embedder is ever loaded; `build` stands for
      `Chroma.from_documents`, which computes the embeddings and may raise. */
  function GetVecstore(
    docs: seq<Doc>,
    split: (seq<Doc>, SplitterConfig) -> Result<seq<Doc>, string>,
    load: EmbedderSpec -> Result<(), string>,
    build: (seq<Doc>, EmbedderSpec) -> Result<(), string>,
    chunkSize: int := 1000,
    chunkOverlap: int := 200,
    embedder: EmbedderArg := Named("OpenAI")
  ): (r: Result<VectorStore, string>)
    ensures var cfg := SplitterConfig(chunkSize, chunkOverlap, true);
      && (split(docs, cfg).Failure? ==> r == Failure(split(docs, cfg).error))
      && (split(docs, cfg).Success? ==>
            var chunks := split(docs, cfg).value;
            var sel := GetEmbedder(embedder, load);
            && (sel.result.Failure? ==> r == Failure(sel.result.error))
            && (sel.result.Success? ==>
                  && (r.Success? <==> build(chunks, sel.result.value).Success?)
                  && (r.Success? ==> r.value == VectorStore(chunks, sel.result.value))
                  && (r.Failure? ==> r.error == build(chunks, sel.result.value).error)))
  {
    match split(docs, SplitterConfig(chunkSize, chunkOverlap, true))
    case Failure(e) => Failure(e)
    case Success(chunks) =>
      match GetEmbedder(embedder, load).result
      case Failure(e) => Failure(e)
      case Success(spec) =>
        match build(chunks, spec)
        case Failure(e) => Failure(e)
        case Success(_) => Success(VectorStore(chunks, spec))
  }

  /** Called with its defaults, `get_vecstore` splits into chunks of 1000
      characters overlapping by 200 and indexes them with the OpenAI
      embedder, or fails with the error of the step that raised. */
  lemma DefaultVecstore(
    docs: seq<Doc>,
    split: (seq<Doc>, SplitterConfig) -> Result<seq<Doc>, string>,
    load: EmbedderSpec -> Result<(), string>,
    build: (seq<Doc>, EmbedderSpec) -> Result<(), string>)
    ensures var r := GetVecstore(docs, split, load, build);
      var cfg := SplitterConfig(1000, 200, true);
      && (r.Success? <==> split(docs, cfg).Success? && load(OpenAIEmbedder).Success?
                            && build(split(docs, cfg).value, OpenAIEmbedder).Success?)
      && (r.Success? ==> r.value == VectorStore(split(docs, cfg).value, OpenAIEmbedder))
  {
  }

  /** The call in run_rag_demo.py passes an embedder object, not the string
      "OpenAI", so it never gets the OpenAI embedder: the first load is the
      local HuggingFace model. */
  lemma DemoArgumentTakesHuggingFaceBranch(load: EmbedderSpec -> Result<(), string>)
    ensures GetEmbedder(Instance("OpenAIEmbeddings"), load).attempts[0] == HuggingFace(PrimaryModel, CpuKwargs)
    ensures GetEmbedder(Instance("OpenAIEmbeddings"), load).result != Success(OpenAIEmbedder)
  {
  }
}

=== FILE: generator.dfy ===
/** The local generator `SystemSavantModel` (`rag_utils/generator.py`):
    a safety gate on the prompt, one call of the language model, a safety
    gate on its output, and trimming of the echoed prompt. The safety
    checkers and the model (tokenizer, `generate`, decoding) are given as
    functions; their internals are not part of this model. */
module Generator {
  import opened Wrappers
  import opened Text

  /** What `gen_resp` may be called with: a `str`, or an object whose
      `.text` attribute holds the prompt (a LangChain `StringPromptValue`). */
  datatype Prompt = Str(s: string) | PromptValue(text: string)

  /** How a checker is called: on the user's prompt, or on the model's
      output as an agent reply to `userPrompt`. */
  datatype CheckContext = UserInput | AgentOutput(userPrompt: string)

  /** The `(method, is_safe, report)` triple a checker returns. */
  datatype Verdict = Verdict(checkName: string, isSafe: bool, report: string)

  type Checker = (string, CheckContext) -> Verdict

  /** What a generator call does: return `None`, return a message, or raise. */
  datatype Outcome = Skipped | Answer(content: string) | Crash(fault: Fault)

  /** Why a generator call raised: `SplitOnNone` is the `AttributeError` of
      `gen_resp` calling `.split` on `None`; `Raised` is any other exception,
      such as a failed `llm.invoke` of `OpenAIGenerator` (line 52). */
  datatype Fault = SplitOnNone | Raised(message: string)

  /** Lines 129-130: a non-`str` prompt is replaced by its `.text`. */
  function Coerce(p: Prompt): string
  {
    match p
    case Str(s) => s
    case PromptValue(t) => t
  }

  /** Every checker applied, in order, to one text. */
  function Verdicts(checkers: seq<Checker>, text: string, ctx: CheckContext): (vs: seq<Verdict>)
    ensures |vs| == |checkers|
    ensures forall i :: 0 <= i < |checkers| ==> vs[i] == checkers[i](text, ctx)
  {
    seq(|checkers|, i requires 0 <= i < |checkers| => checkers[i](text, ctx))
  }

  /** Python's `all([r[1] for r in results])`. */
  function AllSafe(vs: seq<Verdict>): bool
  {
    if |vs| == 0 then true else vs[0].isSafe && AllSafe(vs[1..])
  }

  /** `all` holds exactly when every verdict says safe; in particular it
      holds of the empty list. */
  lemma {:induction false} AllSafeIff(vs: seq<Verdict>)
    ensures AllSafe(vs) <==> forall i :: 0 <= i < |vs| ==> vs[i].isSafe
  {
    if |vs| > 0 {
      AllSafeIff(vs[1..]);
      assert forall i :: 1 <= i < |vs| ==> vs[i] == vs[1..][i - 1];
    }
  }

  /** `all` over the verdicts of a checker list holds exactly when every
      checker judges the text safe. */
  lemma AllSafeVerdicts(checkers: seq<Checker>, text: string, ctx: CheckContext)
    ensures AllSafe(Verdicts(checkers, text, ctx)) <==> forall i :: 0 <= i < |checkers| ==> checkers[i](text, ctx).isSafe
  {
    var vs := Verdicts(checkers, text, ctx);
    AllSafeIff(vs);
    assert forall i :: 0 <= i < |checkers| ==> vs[i] == checkers[i](text, ctx);
  }

  /** The prompt gate: every checker judges the prompt safe. */
  predicate PromptIsSafe(checkers: seq<Checker>, prompt: string)
  {
    AllSafe(Verdicts(checkers, prompt, UserInput))
  }

  /** `safety_check_output`: the output unchanged when every checker, asked
      about it as a reply to `prompt`, judges it safe; otherwise `None`. */
  function SafetyCheckOutput(prompt: string, output: string, checkers: seq<Checker>): (r: Option<string>)
    ensures r == Some(output) <==> forall i :: 0 <= i < |checkers| ==> checkers[i](output, AgentOutput(prompt)).isSafe
    ensures r != Some(output) ==> r == None
  {
    AllSafeVerdicts(checkers, output, AgentOutput(prompt));
    if AllSafe(Verdicts(checkers, output, AgentOutput(prompt))) then Some(output) else None
  }

  /** Line 178 on a string: the text after the last "user", stripped,
      without its first `len(prompt)` characters. */
  function Trim(output: string, prompt: string): string
  {
    Drop(Strip(LastPiece(output, "user")), |prompt|)
  }

  /** What the trimmed text is: a stripped piece `t` of the output that
      contains no "user" and follows the last "user" (or is the whole
      output if there is none), with `len(prompt)` characters cut from its
      front; nothing is left when the prompt is at least as long as `t`. */
  lemma TrimSpec(output: string, prompt: string)
    ensures var piece := LastPiece(output, "user");
      && |piece| <= |output| && output[|output| - |piece|..] == piece
      && !Contains(piece, "user")
      && (!Contains(output, "user") ==> piece == output)
      && (Contains(output, "user") ==> |piece| + 4 <= |output| && OccursAt(output, "user", |output| - |piece| - 4))
      && var t := Strip(piece);
      && (|prompt| >= |t| ==> Trim(output, prompt) == "")
      && (|prompt| < |t| ==> Trim(output, prompt) == t[|prompt|..])
  {
    LastPieceIsTextAfterLastSeparator(output, "user");
  }

  /** The only exception `gen_resp` itself raises is the `AttributeError`
      of line 178; every other fault comes from another generator. */
  lemma GenRespCrashIsSplitOnNone(input: Prompt, checkers: seq<Checker>, model: string -> string)
    ensures GenResp(input, checkers, model).Crash? ==> GenResp(input, checkers, model).fault == SplitOnNone
  {
  }

  /** `gen_resp` as written: prompt gate, model, output gate, trimming. An
      unsafe output makes `safe_output` `None`, and line 178 then raises. */
  function GenResp(input: Prompt, checkers: seq<Checker>, model: string -> string): (r: Outcome)
    ensures var prompt := Coerce(input);
      && (r == Skipped <==> exists i :: 0 <= i < |checkers| && !checkers[i](prompt, UserInput).isSafe)
      && (r.Crash? <==>
            && (forall i :: 0 <= i < |checkers| ==> checkers[i](prompt, UserInput).isSafe)
            && (exists i :: 0 <= i < |checkers| && !checkers[i](model(prompt), AgentOutput(prompt)).isSafe))
      && (r.Answer? ==> r.content == Trim(model(prompt), prompt))
  {
    var prompt := Coerce(input);
    AllSafeVerdicts(checkers, prompt, UserInput);
    if !PromptIsSafe(checkers, prompt) then Skipped
    else
      var output := model(prompt);
      match SafetyCheckOutput(prompt, output, checkers)
      case None => Crash(SplitOnNone)
      case Some(safe) => Answer(Trim(safe, prompt))
  }

  /** `gen_resp` as evidently intended: an unsafe output is suppressed like
      an unsafe prompt, so the call returns `None` and never raises. */
  function GenRespIntended(input: Prompt, checkers: seq<Checker>, model: string -> string): (r: Outcome)
    ensures !r.Crash?
    ensures var prompt := Coerce(input);
      && (r.Answer? <==>
            && (forall i :: 0 <= i < |checkers| ==> checkers[i](prompt, UserInput).isSafe)
            && (forall i :: 0 <= i < |checkers| ==> checkers[i](model(prompt), AgentOutput(prompt)).isSafe))
      && (r.Answer? ==> r.content == Trim(model(prompt), prompt))
  {
    var prompt := Coerce(input);
    AllSafeVerdicts(checkers, prompt, UserInput);
    if !PromptIsSafe(checkers, prompt) then Skipped
    else
      var output := model(prompt);
      match SafetyCheckOutput(prompt, output, checkers)
      case None => Skipped
      case Some(safe) => Answer(Trim(safe, prompt))
  }

  /** Both versions agree on every input whose output is not vetoed. */
  lemma IntendedAgreesUnlessOutputVetoed(input: Prompt, checkers: seq<Checker>, model: string -> string)
    ensures !GenResp(input, checkers, model).Crash? ==> GenRespIntended(input, checkers, model) == GenResp(input, checkers, model)
    ensures GenResp(input, checkers, model).Crash? <==> (GenRespIntended(input, checkers, model) == Skipped && GenResp(input, checkers, model) != Skipped)
  {
  }

  /** A checker that passes every prompt and rejects every output. */
  function RejectOutputs(): Checker
  {
    (text: string, ctx: CheckContext) => Verdict("output-only", ctx.UserInput?, "")
  }

  /** A concrete run of the code as written that raises: the prompt passes,
      the output is vetoed, and `None.split` fails instead of `None` being
      returned. */
  lemma UnsafeOutputRaises(model: string -> string)
    ensures GenResp(Str("hi"), [RejectOutputs()], model) == Crash(SplitOnNone)
    ensures GenRespIntended(Str("hi"), [RejectOutputs()], model) == Skipped
  {
    var c := RejectOutputs();
    assert c("hi", UserInput).isSafe;
    assert !c(model("hi"), AgentOutput("hi")).isSafe;
  }

  /** When the prompt is refused the model is never consulted: the outcome
      is the same whatever the model would have produced. */
  lemma RefusedPromptIgnoresModel(input: Prompt, checkers: seq<Checker>, m1: string -> string, m2: string -> string)
    requires !PromptIsSafe(checkers, Coerce(input))
    ensures GenResp(input, checkers, m1) == GenResp(input, checkers, m2) == Skipped
  {
  }

  /** With no checkers both gates pass: the trimmed model output comes back. */
  lemma NoCheckersAlwaysAnswer(input: Prompt, model: string -> string)
    ensures GenResp(input, [], model) == Answer(Trim(model(Coerce(input)), Coerce(input)))
  {
  }

  /** A prompt object behaves exactly like the string in its `.text`. */
  lemma PromptValueActsAsItsText(t: string, checkers: seq<Checker>, model: string -> string)
    ensures GenResp(PromptValue(t), checkers, model) == GenResp(Str(t), checkers, model)
  {
  }
}

=== FILE: messages.dfy ===
/** The `{"role": ..., "message": ...}` records both chat views store, and
    the echo exchange both append on input. */
module Messages {

  datatype Role = User | Assistant

  datatype Message = Message(role: Role, text: string)

  /** The user's message, then the assistant's echo `f"You said: {input}"`. */
  function Exchange(input: string): seq<Message>
  {
    [Message(User, input), Message(Assistant, "You said: " + input)]
  }
}

=== FILE: ordered_dict.dfy ===
/** Python's insertion-ordered `dict`, as far as the chat views use it:
    `list(d.keys())`, lookup, and assignment `d[k] = v`, which keeps an
    existing key in place and appends a new one. Also `list.index`. */
module OrderedDict {
  import opened Wrappers

  datatype RawDict<K(==), V> = RawDict(keys: seq<K>, items: map<K, V>)

  /** The key list has no repeats and lists exactly the keys of the map. */
  ghost predicate Valid<K, V>(d: RawDict<K, V>)
  {
    && (forall i, j :: 0 <= i < j < |d.keys| ==> d.keys[i] != d.keys[j])
    && (forall k :: k in d.items ==> k in d.keys)
    && (forall i :: 0 <= i < |d.keys| ==> d.keys[i] in d.items)
  }

  type Dict<K(==), V> = d: RawDict<K, V> | Valid(d) witness RawDict([], map[])

  /** `d[k] = v`. */
  function Put<K, V>(d: Dict<K, V>, k: K, v: V): (r: Dict<K, V>)
    ensures r.items == d.items[k := v]
    ensures k in d.items ==> r.keys == d.keys
    ensures k !in d.items ==> r.keys == d.keys + [k]
  {
    if k in d.items then RawDict(d.keys, d.items[k := v])
    else RawDict(d.keys + [k], d.items[k := v])
  }

  /** `xs.index(x)`: the first position of `x`, or the `ValueError` case. */
  function IndexOf<T(==)>(xs: seq<T>, x: T): (r: Option<nat>)
    ensures r.None? <==> x !in xs
    ensures r.Some? ==> r.value < |xs| && xs[r.value] == x && forall j :: 0 <= j < r.value ==> xs[j] != x
  {
    if |xs| == 0 then None
    else if xs[0] == x then Some(0)
    else match IndexOf(xs[1..], x)
      case None => None
      case Some(i) => Some(i + 1)
  }
}

=== FILE: rag.dfy ===
/** The RAG orchestrator (`rag_utils/rag.py`): the prompt template, the
    chain retrieve -> trace -> format -> render -> trace -> generate -> parse
    written as plain function composition, and the response record of
    `gen_resp_dict`. The retriever and the generator are parameters. */
module Rag {
  import opened Wrappers
  import opened Text
  import opened Documents
  import Generator

  // ---------------------------------------------------------------------------
  // prompt templates
  // ---------------------------------------------------------------------------

  /** One piece of a prompt template: literal text or a placeholder. */
  datatype Part = Lit(text: string) | ContextSlot | QuestionSlot

  type Template = seq<Part>

  function PartText(p: Part): string
  {
    match p
    case Lit(s) => s
    case ContextSlot => "{context}"
    case QuestionSlot => "{question}"
  }

  /** The template as the format string it was built from. */
  function TemplateText(t: Template): string
  {
    if |t| == 0 then "" else PartText(t[0]) + TemplateText(t[1..])
  }

  /** `PromptTemplate.format(context=..., question=...)`. */
  function Render(t: Template, context: string, question: string): string
  {
    if |t| == 0 then ""
    else
      var head := match t[0]
        case Lit(s) => s
        case ContextSlot => context
        case QuestionSlot => question;
      head + Render(t[1..], context, question)
  }

  /** Filling each placeholder with its own name gives back the format
      string: rendering substitutes the placeholders and nothing else. */
  lemma {:induction false} RenderPlaceholdersIsText(t: Template)
    ensures Render(t, "{context}", "{question}") == TemplateText(t)
  {
    if |t| > 0 {
      RenderPlaceholdersIsText(t[1..]);
    }
  }

  // The custom format string of rag_utils/rag.py lines 64-71, in short pieces.
  const UserLine: string := "User:\n"
  const Instr1: string := "Use the following pieces of context "
  const Instr2: string := "to answer the question at the end."
  const Instr3: string := "If you don't know the answer, "
  const Instr4: string := "just say that you don't know, "
  const Instr5: string := "don't try to make up an answer."
  const Instr6: string := "Use three sentences maximum and keep "
  const Instr7: string := "the answer as concise as possible."
  const Instr8: string := "Always say \"thanks for asking!\" "
  const Instr9: string := "at the end of the answer.\n"
  const ContextLabel: string := "Context:\n"

  /** The instructions ahead of the context in the custom template. */
  const Preamble: string :=
    UserLine + Instr1 + Instr2 + Instr3 + Instr4 + Instr5 + Instr6 + Instr7 + Instr8 + Instr9 + ContextLabel

  const Interlude: string := "\nQuestion:\n"
  const Closing: string := "\nAnswer:"

  /** The format string `_custom_prompt` stores in `self.template`. */
  const CustomTemplateText: string := Preamble + "{context}" + Interlude + "{question}" + Closing

  /** The template `PromptTemplate.from_template` builds from it. */
  function CustomPrompt(): Template
  {
    [Lit(Preamble), ContextSlot, Lit(Interlude), QuestionSlot, Lit(Closing)]
  }

  /** Where the question placeholder starts in the custom format string. */
  const QuestionAt: nat := |Preamble| + 9 + |Interlude|

  // Proof helpers for `CustomTemplateShape`: no literal piece of the
  // preamble contains a brace, one piece per lemma.

  lemma NoBraceInUserLine()
    ensures '{' !in UserLine
  {
  }

  lemma NoBraceInInstr1()
    ensures '{' !in Instr1
  {
  }

  lemma NoBraceInInstr2()
    ensures '{' !in Instr2
  {
  }

  lemma NoBraceInInstr3()
    ensures '{' !in Instr3
  {
  }

  lemma NoBraceInInstr4()
    ensures '{' !in Instr4
  {
  }

  lemma NoBraceInInstr5()
    ensures '{' !in Instr5
  {
  }

  lemma NoBraceInInstr6()
    ensures '{' !in Instr6
  {
  }

  lemma NoBraceInInstr7()
    ensures '{' !in Instr7
  {
  }

  lemma NoBraceInInstr8()
    ensures '{' !in Instr8
  {
  }

  lemma NoBraceInInstr9()
    ensures '{' !in Instr9
  {
  }

  lemma NoBraceInContextLabel()
    ensures '{' !in ContextLabel
  {
  }

  /** The preamble holds no placeholder. */
  lemma PreambleHasNoBrace()
    ensures '{' !in Preamble
  {
    NoBraceInUserLine();
    NoBraceInInstr1();
    NoBraceInInstr2();
    NoBraceInInstr3();
    NoBraceInInstr4();
    NoBraceInInstr5();
    NoBraceInInstr6();
    NoBraceInInstr7();
    NoBraceInInstr8();
    NoBraceInInstr9();
    NoBraceInContextLabel();
  }

  /** An occurrence of a pattern that starts with a brace sits on a brace. */
  lemma OccurrenceStartsWithBrace(s: string, p: string, i: nat)
    requires |p| > 0 && p[0] == '{' && OccursAt(s, p, i)
    ensures i < |s| && s[i] == '{'
  {
    assert s[i..i + |p|][0] == p[0];
  }

  /** A brace-led pattern cannot start inside brace-free text `x`: its
      occurrences in `x + y` are those in `y`, shifted. */
  lemma SkipBraceFree(x: string, y: string, p: string, i: nat)
    requires '{' !in x && |p| > 0 && p[0] == '{'
    ensures OccursAt(x + y, p, i) <==> (i >= |x| && OccursAt(y, p, i - |x|))
  {
    var s := x + y;
    assert forall k :: 0 <= k < |x| ==> s[k] == x[k];
    if OccursAt(s, p, i) {
      assert s[i..i + |p|][0] == s[i];
      assert s[i..i + |p|] == y[i - |x|..i - |x| + |p|];
    }
    if i >= |x| && OccursAt(y, p, i - |x|) {
      assert s[i..i + |p|] == y[i - |x|..i - |x| + |p|];
    }
  }

  /** Past a placeholder `x` (one leading brace), a brace-led pattern occurs
      either at the placeholder itself or in what follows it. */
  lemma SkipPlaceholder(x: string, y: string, p: string, i: nat)
    requires |x| > 0 && '{' !in x[1..] && |p| > 0 && p[0] == '{'
    ensures OccursAt(x + y, p, i) <==> (i == 0 && OccursAt(x + y, p, 0)) || (i >= |x| && OccursAt(y, p, i - |x|))
  {
    var s := x + y;
    assert forall k :: 0 < k < |x| ==> s[k] == x[1..][k - 1];
    if OccursAt(s, p, i) && i > 0 {
      assert s[i..i + |p|][0] == s[i];
      assert s[i..i + |p|] == y[i - |x|..i - |x| + |p|];
    }
    if i >= |x| && OccursAt(y, p, i - |x|) {
      assert s[i..i + |p|] == y[i - |x|..i - |x| + |p|];
    }
  }

  /** In `a + x + b + y + c` with brace-free literals `a`, `b`, `c` and
      placeholders `x`, `y` (one leading brace each), a brace-led pattern
      can only occur where a placeholder starts. */
  lemma PlaceholderPositions(a: string, x: string, b: string, y: string, c: string, p: string, i: nat)
    requires '{' !in a && '{' !in b && '{' !in c
    requires |x| > 0 && '{' !in x[1..] && |y| > 0 && '{' !in y[1..]
    requires |p| > 0 && p[0] == '{'
    ensures var s := a + (x + (b + (y + c)));
      OccursAt(s, p, i) <==>
        || (i == |a| && OccursAt(x + (b + (y + c)), p, 0))
        || (i == |a| + |x| + |b| && OccursAt(y + c, p, 0))
  {
    var t3 := y + c;
    var t2 := b + t3;
    var t1 := x + t2;
    SkipBraceFree(a, t1, p, i);
    if i >= |a| {
      var j := i - |a|;
      SkipPlaceholder(x, t2, p, j);
      if j >= |x| {
        SkipBraceFree(b, t3, p, j - |x|);
        if j - |x| >= |b| {
          var k := j - |x| - |b|;
          SkipPlaceholder(y, c, p, k);
          if k >= |y| {
            SkipBraceFree(c, [], p, k - |y|);
            assert c + [] == c;
          }
        }
      }
    }
  }

  /** In a format string whose literal text has no braces, each
      placeholder occurs exactly where it was put. */
  lemma SlotOccurrences(a: string, b: string, c: string)
    requires '{' !in a && '{' !in b && '{' !in c
    ensures var s := a + ("{context}" + (b + ("{question}" + c)));
      && Occurrences(s, "{context}") == {|a|}
      && Occurrences(s, "{question}") == {|a| + 9 + |b|}
  {
    var x := "{context}";
    var y := "{question}";
    var t3 := y + c;
    var t1 := x + (b + t3);
    var s := a + t1;
    var q := |a| + 9 + |b|;
    assert '{' !in x[1..];
    assert '{' !in y[1..];
    assert t1[..9] == x;
    assert t3[..10] == y;
    assert t1[..10] != y by { assert t1[1] == 'c'; }
    assert t3[..9] != x by { assert t3[1] == 'q'; }
    forall i: nat
      ensures OccursAt(s, x, i) <==> i == |a|
    {
      PlaceholderPositions(a, x, b, y, c, x, i);
    }
    forall i: nat
      ensures OccursAt(s, y, i) <==> i == q
    {
      PlaceholderPositions(a, x, b, y, c, y, i);
    }
  }

  /** A template of the custom shape reads as its literals around the two
      placeholder names. */
  lemma SlotTemplateText(a: string, b: string, c: string)
    ensures TemplateText([Lit(a), ContextSlot, Lit(b), QuestionSlot, Lit(c)]) == a + "{context}" + b + "{question}" + c
  {
    var t := [Lit(a), ContextSlot, Lit(b), QuestionSlot, Lit(c)];
    assert TemplateText(t[4..]) == c;
    assert TemplateText(t[3..]) == "{question}" + c;
    assert TemplateText(t[2..]) == b + "{question}" + c;
    assert TemplateText(t[1..]) == "{context}" + b + "{question}" + c;
  }

  lemma CustomTemplateTextParts()
    ensures TemplateText(CustomPrompt()) == CustomTemplateText
  {
    SlotTemplateText(Preamble, Interlude, Closing);
  }

  lemma ShortPiecesHaveNoBrace()
    ensures '{' !in Interlude && '{' !in Closing
  {
  }

  lemma Reassociate(a: string, b: string, c: string, d: string, e: string)
    ensures a + b + c + d + e == a + (b + (c + (d + e)))
  {
  }

  lemma EndsWithClosing(s: string)
    ensures EndsWith(s + Closing, "Answer:")
  {
    assert (s + Closing)[|s| + 1..] == "Answer:";
  }

  /** The custom template is the source's format string; `{context}` occurs
      in it exactly once, `{question}` exactly once and after it, and the
      string ends with "Answer:". */
  lemma CustomTemplateShape()
    ensures TemplateText(CustomPrompt()) == CustomTemplateText
    ensures Occurrences(CustomTemplateText, "{context}") == {|Preamble|}
    ensures Occurrences(CustomTemplateText, "{question}") == {QuestionAt}
    ensures |Preamble| < QuestionAt
    ensures EndsWith(CustomTemplateText, "Answer:")
  {
    CustomTemplateTextParts();
    PreambleHasNoBrace();
    ShortPiecesHaveNoBrace();
    SlotOccurrences(Preamble, Interlude, Closing);
    Reassociate(Preamble, "{context}", Interlude, "{question}", Closing);
    EndsWithClosing(Preamble + "{context}" + Interlude + "{question}");
  }

  /** Rendering the custom template lays out instructions, context,
      question and closing in that order, each verbatim. */
  lemma RenderCustom(context: string, question: string)
    ensures Render(CustomPrompt(), context, question) == Preamble + context + Interlude + question + Closing
  {
    RenderSlots(Preamble, Interlude, Closing, context, question);
  }

  lemma RenderSlots(a: string, b: string, c: string, context: string, question: string)
    ensures Render([Lit(a), ContextSlot, Lit(b), QuestionSlot, Lit(c)], context, question) == a + context + b + question + c
  {
    var t := [Lit(a), ContextSlot, Lit(b), QuestionSlot, Lit(c)];
    assert Render(t[4..], context, question) == c;
    assert Render(t[3..], context, question) == question + c;
    assert Render(t[2..], context, question) == b + question + c;
    assert Render(t[1..], context, question) == context + b + question + c;
  }

  // ---------------------------------------------------------------------------
  // chain stages
  // ---------------------------------------------------------------------------

  /** A `{"page_content": ..., "metadata": ...}` entry of the docs trace. */
  datatype TraceEntry = TraceEntry(pageContent: string, metadata: map<string, MetaValue>)

  /** The attributes of a `RAG` object that the model tracks. */
  datatype Rag = Rag(
    prompt: Template,
    template: Option<string>,
    traceRetrieved: Option<seq<TraceEntry>>,
    tracePrompted: Option<string>,
    cacheDir: string)

  function Contents(docs: seq<Doc>): (cs: seq<string>)
    ensures |cs| == |docs|
    ensures forall i :: 0 <= i < |docs| ==> cs[i] == docs[i].pageContent
  {
    seq(|docs|, i requires 0 <= i < |docs| => docs[i].pageContent)
  }

  /** `_format_docs`: the page contents joined by a blank line. */
  function FormatDocs(docs: seq<Doc>): (r: string)
    ensures |docs| == 0 ==> r == ""
    ensures |docs| == 1 ==> r == docs[0].pageContent
    ensures |docs| > 0 ==> |r| == SumLengths(Contents(docs)) + 2 * (|docs| - 1)
  {
    if |docs| == 0 then ""
    else
      JoinLength(Contents(docs), "\n\n");
      Join(Contents(docs), "\n\n")
  }

  /** Document `i`'s content appears verbatim at its offset in the context,
      followed by exactly one "\n\n" unless it is the last document. */
  lemma FormatDocsInOrder(docs: seq<Doc>, i: nat)
    requires i < |docs|
    ensures var o := Offset(Contents(docs), "\n\n", i);
      var c := docs[i].pageContent;
      var r := FormatDocs(docs);
      && o + |c| <= |r| && r[o..o + |c|] == c
      && (i + 1 < |docs| ==> o + |c| + 2 <= |r| && r[o + |c|..o + |c| + 2] == "\n\n")
  {
    JoinPlaces(Contents(docs), "\n\n", i);
  }

  /** `_custom_prompt`: sets `self.template` to the format string and
      returns the template built from it. */
  function CustomPromptOn(self: Rag): (r: (Rag, Template))
    ensures r.1 == CustomPrompt()
    ensures r.0.template == Some(TemplateText(r.1))
    ensures r.0 == self.(template := r.0.template)
  {
    CustomTemplateShape();
    (self.(template := Some(CustomTemplateText)), CustomPrompt())
  }

  /** An object before `__init__` has run any line the model tracks. */
  function Blank(): Rag
  {
    Rag([], None, None, None, "")
  }

  /** `RAG.__init__` as written: choose the prompt (the custom one, or
      whatever `hub.pull` returns for `promptSrc`), then reset the template
      and both traces to `None`. The reset also wipes the template that
      `_custom_prompt` has just stored. */
  function Construct(pull: string -> Template, promptSrc: string := "rlm/rag-prompt", cacheDir: string := ""): (r: Rag)
    ensures r.template == None
    ensures r.traceRetrieved == None && r.tracePrompted == None
    ensures promptSrc == "custom" ==> r.prompt == CustomPrompt()
    ensures promptSrc != "custom" ==> r.prompt == pull(promptSrc)
    ensures r.cacheDir == cacheDir
  {
    var withPrompt :=
      if promptSrc == "custom" then
        var (s, p) := CustomPromptOn(Blank()); s.(prompt := p)
      else Blank().(prompt := pull(promptSrc));
    withPrompt.(template := None, traceRetrieved := None, tracePrompted := None, cacheDir := cacheDir)
  }

  /** `RAG.__init__` as evidently intended: the template attribute is
      initialised before the prompt is chosen, so the custom format string
      survives and the hub case has no template. */
  function ConstructIntended(pull: string -> Template, promptSrc: string := "rlm/rag-prompt", cacheDir: string := ""): (r: Rag)
    ensures promptSrc == "custom" ==> r.template == Some(CustomTemplateText) && r.prompt == CustomPrompt()
    ensures promptSrc != "custom" ==> r.template == None && r.prompt == pull(promptSrc)
    ensures r.traceRetrieved == None && r.tracePrompted == None
    ensures r.cacheDir == cacheDir
  {
    var init := Blank().(template := None, traceRetrieved := None, tracePrompted := None, cacheDir := cacheDir);
    if promptSrc == "custom" then
      var (s, p) := CustomPromptOn(init); s.(prompt := p)
    else init.(prompt := pull(promptSrc))
  }

  /** The overwrite, exhibited: `_custom_prompt` does store the format
      string, yet the constructed object holds no template. */
  lemma ConstructDropsTemplate(pull: string -> Template, cacheDir: string)
    ensures CustomPromptOn(Blank()).0.template == Some(CustomTemplateText)
    ensures Construct(pull, "custom", cacheDir).template == None
    ensures ConstructIntended(pull, "custom", cacheDir).template == Some(CustomTemplateText)
  {
    CustomTemplateShape();
  }

  /** `_trace_retrieved_docs`: records one entry per document, in order,
      and passes the documents on unchanged. */
  function TraceRetrieved(self: Rag, docs: seq<Doc>): (r: (Rag, seq<Doc>))
    ensures r.1 == docs
    ensures r.0.traceRetrieved.Some? && |r.0.traceRetrieved.value| == |docs|
    ensures forall i :: 0 <= i < |docs| ==>
              r.0.traceRetrieved.value[i] == TraceEntry(docs[i].pageContent, docs[i].metadata)
    ensures r.0 == self.(traceRetrieved := r.0.traceRetrieved)
  {
    var entries := seq(|docs|, i requires 0 <= i < |docs| => TraceEntry(docs[i].pageContent, docs[i].metadata));
    (self.(traceRetrieved := Some(entries)), docs)
  }

  /** `_trace_prompted_docs`: records the prompt's string form and passes
      the prompt on unchanged. */
  function TracePrompted(self: Rag, message: Generator.Prompt): (r: (Rag, Generator.Prompt))
    requires message.PromptValue?
    ensures r.1 == message
    ensures r.0.tracePrompted == Some(message.text)
    ensures r.0 == self.(tracePrompted := r.0.tracePrompted)
  {
    (self.(tracePrompted := Some(message.text)), message)
  }

  /** Why an invocation of the chain raised. */
  datatype ChainError =
    | RetrieverRaised(message: string)
    | GeneratorRaised(fault: Generator.Fault)
    | NullGeneration

  /** `rag_chain.invoke(query)`: retrieve, trace the documents, format them
      into the context, render the prompt with the query as the question,
      trace it, generate from that same prompt and parse the message to its
      text. The traces stay set even when a later stage raises. */
  function Invoke(
    self: Rag, query: string,
    retrieve: string -> Result<seq<Doc>, string>,
    generate: Generator.Prompt -> Generator.Outcome
  ): (r: (Rag, Result<string, ChainError>))
    ensures r.0.prompt == self.prompt && r.0.template == self.template && r.0.cacheDir == self.cacheDir
    ensures retrieve(query).Failure? ==> r == (self, Failure(RetrieverRaised(retrieve(query).error)))
    ensures retrieve(query).Success? ==>
      var docs := retrieve(query).value;
      var text := Render(self.prompt, FormatDocs(docs), query);
      && r.0.traceRetrieved == TraceRetrieved(self, docs).0.traceRetrieved
      && r.0.tracePrompted == Some(text)
      && (r.1.Success? <==> generate(Generator.PromptValue(text)).Answer?)
      && (r.1.Success? ==> r.1.value == generate(Generator.PromptValue(r.0.tracePrompted.value)).content)
      && (generate(Generator.PromptValue(text)) == Generator.Skipped ==> r.1 == Failure(NullGeneration))
      && (generate(Generator.PromptValue(text)).Crash? ==>
            r.1 == Failure(GeneratorRaised(generate(Generator.PromptValue(text)).fault)))
  {
    match retrieve(query)
    case Failure(e) => (self, Failure(RetrieverRaised(e)))
    case Success(retrieved) =>
      var (s1, docs) := TraceRetrieved(self, retrieved);
      var context := FormatDocs(docs);
      var message := Generator.PromptValue(Render(s1.prompt, context, query));
      var (s2, traced) := TracePrompted(s1, message);
      var parsed := match generate(traced)
        case Answer(content) => Success(content)
        case Skipped => Failure(NullGeneration)
        case Crash(f) => Failure(GeneratorRaised(f));
      (s2, parsed)
  }

  /** A value of the response dictionary: `None`, a string, or the list of
      traced documents. */
  datatype Field = Null | Str(s: string) | Entries(entries: seq<TraceEntry>)

  function FieldOf(o: Option<string>): Field
  {
    match o
    case None => Null
    case Some(s) => Str(s)
  }

  function EntriesOf(o: Option<seq<TraceEntry>>): Field
  {
    match o
    case None => Null
    case Some(es) => Entries(es)
  }

  const ResponseKeys: set<string> := {"prompt template", "docs", "input", "response", "time"}

  /** `gen_resp_dict`: invoke the chain and report the template, both
      traces, the response and the elapsed time. `elapsed` is the rounded
      number of seconds as Python prints it; the clock is not modelled. */
  function GenRespDict(
    self: Rag, query: string,
    retrieve: string -> Result<seq<Doc>, string>,
    generate: Generator.Prompt -> Generator.Outcome,
    elapsed: string
  ): (r: (Rag, Result<map<string, Field>, ChainError>))
    ensures r.1.Success? <==> Invoke(self, query, retrieve, generate).1.Success?
    ensures r.1.Failure? ==> r.1 == Failure(Invoke(self, query, retrieve, generate).1.error)
    ensures r.0 == Invoke(self, query, retrieve, generate).0
    ensures r.1.Success? ==>
      var d := r.1.value;
      var docs := retrieve(query).value;
      && d.Keys == ResponseKeys
      && d["prompt template"] == FieldOf(self.template)
      && d["docs"] == Entries(seq(|docs|, i requires 0 <= i < |docs| => TraceEntry(docs[i].pageContent, docs[i].metadata)))
      && d["input"] == Str(Render(self.prompt, FormatDocs(docs), query))
      && d["response"] == Str(Invoke(self, query, retrieve, generate).1.value)
      && d["time"].Str? && EndsWith(d["time"].s, " sec")
  {
    var (s, response) := Invoke(self, query, retrieve, generate);
    match response
    case Failure(e) => (s, Failure(e))
    case Success(text) =>
      (s, Success(map[
        "prompt template" := FieldOf(s.template),
        "docs" := EntriesOf(s.traceRetrieved),
        "input" := FieldOf(s.tracePrompted),
        "response" := Str(text),
        "time" := Str(elapsed + " sec")]))
  }

  /** As written, the "prompt template" field is `None` for every prompt
      source, the custom one included. */
  lemma TemplateFieldAlwaysNull(
    promptSrc: string, pull: string -> Template, cacheDir: string, query: string,
    retrieve: string -> Result<seq<Doc>, string>,
    generate: Generator.Prompt -> Generator.Outcome, elapsed: string)
    ensures var r := GenRespDict(Construct(pull, promptSrc, cacheDir), query, retrieve, generate, elapsed);
      r.1.Success? ==> r.1.value["prompt template"] == Null
  {
  }

  /** With the intended constructor the custom format string is reported. */
  lemma IntendedTemplateFieldReported(
    pull: string -> Template, cacheDir: string, query: string,
    retrieve: string -> Result<seq<Doc>, string>,
    generate: Generator.Prompt -> Generator.Outcome, elapsed: string)
    ensures var r := GenRespDict(ConstructIntended(pull, "custom", cacheDir), query, retrieve, generate, elapsed);
      r.1.Success? ==> r.1.value["prompt template"] == Str(CustomTemplateText)
  {
  }

  /** Wired to the local generator, the chain's safety checks and model
      see exactly the prompt string recorded in the trace. */
  lemma LocalGeneratorSeesTracedPrompt(
    self: Rag, query: string,
    retrieve: string -> Result<seq<Doc>, string>,
    checkers: seq<Generator.Checker>, model: string -> string)
    requires retrieve(query).Success?
    ensures var r := Invoke(self, query, retrieve, (p: Generator.Prompt) => Generator.GenResp(p, checkers, model));
      && r.0.tracePrompted.Some?
      && var out := Generator.GenResp(Generator.Str(r.0.tracePrompted.value), checkers, model);
      && (out.Answer? <==> r.1.Success?)
      && (out.Answer? ==> r.1.value == out.content)
      && (out == Generator.Skipped ==> r.1 == Failure(NullGeneration))
  {
    var docs := retrieve(query).value;
    var text := Render(self.prompt, FormatDocs(docs), query);
    Generator.PromptValueActsAsItsText(text, checkers, model);
  }
}

=== FILE: student_view.dfy ===
/** The session state of the course discussion page (`studentview.py`):
    courses, each an ordered mapping from thread title to messages, plus
    the selected course and thread. Each transition is what one widget
    event does to `st.session_state`; rendering is not modelled. */
module StudentView {
  import opened Wrappers
  import opened OrderedDict
  import opened Messages

  type Thread = seq<Message>
  type Course = Dict<string, Thread>

  datatype State = State(courses: Dict<string, Course>, currentCourse: string, currentThread: string)

  /** A new thread: a single assistant welcome message. */
  function Welcome(text: string): Thread
  {
    [Message(Assistant, text)]
  }

  /** Every course has a thread, and every thread starts with an
      assistant message. */
  ghost predicate ThreadsWellFormed(courses: Dict<string, Course>)
  {
    && (forall c :: c in courses.items ==> |courses.items[c].keys| > 0)
    && (forall c, t :: c in courses.items && t in courses.items[c].items ==>
          |courses.items[c].items[t]| > 0 && courses.items[c].items[t][0].role == Assistant)
  }

  /** The selected course exists and the selected thread belongs to it. */
  predicate PointersValid(s: State)
  {
    s.currentCourse in s.courses.items && s.currentThread in s.courses.items[s.currentCourse].items
  }

  ghost predicate WellFormed(s: State)
  {
    ThreadsWellFormed(s.courses) && PointersValid(s)
  }

  function InitialCourses(): Dict<string, Course>
  {
    var math: Course := RawDict(["General Discussion", "Homework Help"], map[
      "General Discussion" := Welcome("Welcome to Math 101 General Discussion!"),
      "Homework Help" := Welcome("Welcome to Math 101 Homework Help!")]);
    var history: Course := RawDict(["General Discussion"], map[
      "General Discussion" := Welcome("Welcome to History 202 General Discussion!")]);
    var table: map<string, Course> := map["Math 101" := math, "History 202" := history];
    RawDict(["Math 101", "History 202"], table)
  }

  /** The welcome of an initial thread names its course and its title. */
  function CourseWelcome(course: string, thread: string): Thread
  {
    Welcome("Welcome to " + course + " " + thread + "!")
  }

  // Proof helpers for `InitialWelcomes`: each initial welcome literal is the
  // `CourseWelcome` of its course and thread.

  lemma WelcomeMathGeneral(c: string, t: string)
    requires c == "Math 101" && t == "General Discussion"
    ensures CourseWelcome(c, t) == Welcome("Welcome to Math 101 General Discussion!")
  {
    assert "Welcome to " + c + " " + t + "!" == "Welcome to Math 101 General Discussion!";
  }

  lemma WelcomeMathHomework(c: string, t: string)
    requires c == "Math 101" && t == "Homework Help"
    ensures CourseWelcome(c, t) == Welcome("Welcome to Math 101 Homework Help!")
  {
    assert "Welcome to " + c + " " + t + "!" == "Welcome to Math 101 Homework Help!";
  }

  lemma WelcomeHistoryGeneral(c: string, t: string)
    requires c == "History 202" && t == "General Discussion"
    ensures CourseWelcome(c, t) == Welcome("Welcome to History 202 General Discussion!")
  {
    assert "Welcome to " + c + " " + t + "!" == "Welcome to History 202 General Discussion!";
  }

  lemma InitialWelcomes()
    ensures var cs := InitialCourses();
      forall c, t :: c in cs.items && t in cs.items[c].items ==> cs.items[c].items[t] == CourseWelcome(c, t)
  {
    var cs := InitialCourses();
    forall c, t | c in cs.items && t in cs.items[c].items
      ensures cs.items[c].items[t] == CourseWelcome(c, t)
    {
      if c == "Math 101" {
        if t == "General Discussion" {
          WelcomeMathGeneral(c, t);
        } else {
          WelcomeMathHomework(c, t);
        }
      } else {
        WelcomeHistoryGeneral(c, t);
      }
    }
  }

  /** The session state on first load: two courses, three threads each
      holding one welcome naming its course and thread; the first course
      and its first thread are selected. */
  function Init(): (s: State)
    ensures WellFormed(s)
    ensures s.courses.keys == ["Math 101", "History 202"]
    ensures "Math 101" in s.courses.items && "History 202" in s.courses.items
    ensures s.courses.items["Math 101"].keys == ["General Discussion", "Homework Help"]
    ensures s.courses.items["History 202"].keys == ["General Discussion"]
    ensures forall c, t :: c in s.courses.items && t in s.courses.items[c].items ==>
              s.courses.items[c].items[t] == CourseWelcome(c, t)
    ensures s.currentCourse == s.courses.keys[0]
    ensures s.currentThread == s.courses.items[s.currentCourse].keys[0]
  {
    var courses := InitialCourses();
    var course := courses.keys[0];
    InitialWelcomes();
    State(courses, course, courses.items[course].keys[0])
  }

  /** The course radio button: only the selected course changes. */
  function SelectCourse(s: State, course: string): (r: State)
    requires course in s.courses.items
    ensures r.currentCourse == course
    ensures r.courses == s.courses && r.currentThread == s.currentThread
    ensures ThreadsWellFormed(s.courses) ==> ThreadsWellFormed(r.courses)
  {
    s.(currentCourse := course)
  }

  /** `threads.index(current_thread)` when the thread list is drawn: the
      position of the selected thread in the selected course, or the
      `ValueError` raised when it is not one of that course's threads. */
  function ThreadIndex(s: State): (r: Result<nat, string>)
    requires s.currentCourse in s.courses.items
    ensures r.Success? <==> PointersValid(s)
    ensures r.Success? ==>
      r.value < |s.courses.items[s.currentCourse].keys| && s.courses.items[s.currentCourse].keys[r.value] == s.currentThread
  {
    match IndexOf(s.courses.items[s.currentCourse].keys, s.currentThread)
    case None => Failure("ValueError: thread not in list")
    case Some(i) => Success(i)
  }

  /** The course radio button as evidently intended: switching course also
      selects that course's first thread, so the selection stays valid. */
  function SelectCourseIntended(s: State, course: string): (r: State)
    requires course in s.courses.items && |s.courses.items[course].keys| > 0
    ensures r.courses == s.courses && r.currentCourse == course
    ensures PointersValid(r)
    ensures WellFormed(s) ==> WellFormed(r)
  {
    s.(currentCourse := course, currentThread := s.courses.items[course].keys[0])
  }

  /** The thread select box: only the selected thread changes. */
  function SelectThread(s: State, thread: string): (r: State)
    requires s.currentCourse in s.courses.items && thread in s.courses.items[s.currentCourse].items
    ensures r.currentThread == thread
    ensures r.courses == s.courses && r.currentCourse == s.currentCourse
    ensures WellFormed(s) ==> WellFormed(r)
  {
    s.(currentThread := thread)
  }

  /** Whether "Create New Thread" accepts a title. */
  predicate Accepts(s: State, title: string)
    requires s.currentCourse in s.courses.items
  {
    title != "" && title !in s.courses.items[s.currentCourse].items
  }

  /** "Create New Thread": a non-empty title that is not yet a thread of the
      selected course becomes a new last thread holding one welcome, and is
      selected; any other title leaves the state as it was. */
  function CreateThread(s: State, title: string): (r: State)
    requires s.currentCourse in s.courses.items
    ensures !Accepts(s, title) ==> r == s
    ensures Accepts(s, title) ==>
      var c := s.currentCourse;
      && r.currentCourse == c && r.currentThread == title
      && r.courses.keys == s.courses.keys
      && c in r.courses.items
      && r.courses.items[c].keys == s.courses.items[c].keys + [title]
      && r.courses.items[c].items == s.courses.items[c].items[title := Welcome("Welcome to " + title + "!")]
      && (forall other :: other in s.courses.items && other != c ==> r.courses.items[other] == s.courses.items[other])
    ensures r.courses.items.Keys == s.courses.items.Keys
    ensures Accepts(s, title) ==> PointersValid(r)
    ensures ThreadsWellFormed(s.courses) ==> ThreadsWellFormed(r.courses)
    ensures WellFormed(s) ==> WellFormed(r)
  {
    var c := s.currentCourse;
    var threads := s.courses.items[c];
    if title != "" && title !in threads.items then
      State(Put(s.courses, c, Put(threads, title, Welcome("Welcome to " + title + "!"))), c, title)
    else
      s
  }

  /** Chat input: a non-empty input appends the user's message and then the
      echo to the selected thread; no other thread, course or selection
      changes. */
  function Send(s: State, input: string): (r: State)
    requires PointersValid(s)
    ensures input == "" ==> r == s
    ensures input != "" ==>
      var c := s.currentCourse;
      var t := s.currentThread;
      && r.currentCourse == c && r.currentThread == t
      && r.courses.keys == s.courses.keys
      && c in r.courses.items && r.courses.items[c].keys == s.courses.items[c].keys
      && t in r.courses.items[c].items
      && r.courses.items[c].items[t] == s.courses.items[c].items[t] + Exchange(input)
      && (forall u :: u in s.courses.items[c].items && u != t ==> r.courses.items[c].items[u] == s.courses.items[c].items[u])
      && (forall other :: other in s.courses.items && other != c ==> r.courses.items[other] == s.courses.items[other])
    ensures WellFormed(s) ==> WellFormed(r)
  {
    if input == "" then s
    else
      var c := s.currentCourse;
      var t := s.currentThread;
      var threads := s.courses.items[c];
      State(Put(s.courses, c, Put(threads, t, threads.items[t] + Exchange(input))), c, t)
  }

  /** The widget events of the page. */
  datatype Event = ChooseCourse(course: string) | ChooseThread(thread: string) | Create(title: string) | Input(text: string)

  /** One event applied to the state. Widgets only offer existing courses
      and threads, so other choices are ignored; once the selected thread
      is not in the selected course the page raises before any thread
      widget is drawn, so thread events leave the state unchanged. */
  function Step(s: State, e: Event): State
  {
    match e
    case ChooseCourse(c) => if c in s.courses.items then SelectCourse(s, c) else s
    case ChooseThread(t) =>
      if PointersValid(s) && t in s.courses.items[s.currentCourse].items then SelectThread(s, t) else s
    case Create(title) => if PointersValid(s) then CreateThread(s, title) else s
    case Input(text) => if PointersValid(s) then Send(s, text) else s
  }

  /** The state after a sequence of events. */
  function Run(s: State, events: seq<Event>): State
    decreases |events|
  {
    if |events| == 0 then s else Run(Step(s, events[0]), events[1..])
  }

  /** Whatever the user does, the set of courses stays the same and every
      thread stays non-empty and led by an assistant message, even after a
      course switch has left the selection invalid. */
  lemma {:induction false} EventsKeepThreadsWellFormed(s: State, events: seq<Event>)
    requires ThreadsWellFormed(s.courses)
    ensures ThreadsWellFormed(Run(s, events).courses)
    ensures Run(s, events).courses.items.Keys == s.courses.items.Keys
    decreases |events|
  {
    if |events| > 0 {
      StepKeepsThreadsWellFormed(s, events[0]);
      EventsKeepThreadsWellFormed(Step(s, events[0]), events[1..]);
    }
  }

  lemma StepKeepsThreadsWellFormed(s: State, e: Event)
    requires ThreadsWellFormed(s.courses)
    ensures ThreadsWellFormed(Step(s, e).courses)
    ensures Step(s, e).courses.items.Keys == s.courses.items.Keys
  {
    match e
    case ChooseCourse(c) =>
    case ChooseThread(t) =>
    case Create(title) =>
    case Input(text) =>
      if PointersValid(s) {
        assert WellFormed(s);
        var r := Send(s, text);
        assert WellFormed(r);
      }
  }

  /** Choosing "Homework Help" in Math 101 and then switching to History 202
      leaves a selected thread History 202 does not have, so drawing the
      thread list raises; the intended switch selects a thread it has. */
  lemma CourseSwitchStrandsThread()
    ensures var s := SelectThread(Init(), "Homework Help");
      && WellFormed(s)
      && !PointersValid(SelectCourse(s, "History 202"))
      && ThreadIndex(SelectCourse(s, "History 202")).Failure?
      && PointersValid(SelectCourseIntended(s, "History 202"))
  {
    var s := SelectThread(Init(), "Homework Help");
    assert s.courses.items["History 202"].keys == ["General Discussion"];
  }
}

=== FILE: teacher_view.dfy ===
/** The session state of the multi-chat page (`teacherview.py`): chat
    sessions in creation order, each a list of messages, plus the selected
    session. Each transition is what one widget event does to
    `st.session_state`; rendering is not modelled. */
module TeacherView {
  import opened Text
  import opened OrderedDict
  import opened Messages

  datatype State = State(sessions: Dict<string, seq<Message>>, current: string)

  const Greeting: Message := Message(Assistant, "Hello, I'm ChatGPT. How can I help you today?")

  /** `f"Chat {n}"`. */
  function ChatName(n: nat): string
  {
    "Chat " + NatToString(n)
  }

  lemma ChatNameInjective(a: nat, b: nat)
    requires ChatName(a) == ChatName(b)
    ensures a == b
  {
    assert ChatName(a)[5..] == NatToString(a);
    assert ChatName(b)[5..] == NatToString(b);
    NatToStringInjective(a, b);
  }

  /** The names "Chat 1" .. "Chat n", in order. */
  function Names(n: nat): seq<string>
  {
    if n == 0 then [] else Names(n - 1) + [ChatName(n)]
  }

  /** Position `i` of `Names(n)` holds "Chat i+1". */
  lemma {:induction false} NamesAt(n: nat)
    ensures |Names(n)| == n
    ensures forall i :: 0 <= i < n ==> Names(n)[i] == ChatName(i + 1)
  {
    if n > 0 {
      NamesAt(n - 1);
    }
  }

  /** The shape every reachable state has: sessions "Chat 1" .. "Chat n" in
      order, the selected one among them, each starting with the greeting. */
  ghost predicate Canonical(s: State)
  {
    && |s.sessions.keys| >= 1
    && s.sessions.keys == Names(|s.sessions.keys|)
    && s.current in s.sessions.items
    && (forall k :: k in s.sessions.items ==> |s.sessions.items[k]| > 0 && s.sessions.items[k][0] == Greeting)
  }

  /** No session disappears and no session loses or changes a message. */
  ghost predicate Grows(s: State, r: State)
  {
    forall k :: k in s.sessions.items ==> k in r.sessions.items && s.sessions.items[k] <= r.sessions.items[k]
  }

  /** First load: one session "Chat 1" holding the greeting, selected. */
  function Init(): (s: State)
    ensures Canonical(s)
    ensures s.sessions.keys == [ChatName(1)] && s.current == ChatName(1)
    ensures s.sessions.items[s.current] == [Greeting]
  {
    assert NatToString(1) == "1";
    assert ChatName(1) == "Chat 1";
    assert Names(1) == Names(0) + [ChatName(1)];
    State(RawDict(["Chat 1"], map["Chat 1" := [Greeting]]), "Chat 1")
  }

  /** The chat radio button: only the selection changes. */
  function Select(s: State, name: string): (r: State)
    requires name in s.sessions.items
    ensures r.current == name && r.sessions == s.sessions
    ensures Canonical(s) ==> Canonical(r)
  {
    s.(current := name)
  }

  /** With sessions "Chat 1" .. "Chat n", the next name "Chat n+1" is new. */
  lemma NextNameIsFresh(s: State)
    ensures Canonical(s) ==> ChatName(|s.sessions.keys| + 1) !in s.sessions.items
  {
    var n := |s.sessions.keys|;
    NamesAt(n);
    if Canonical(s) && ChatName(n + 1) in s.sessions.items {
      var i :| 0 <= i < n && s.sessions.keys[i] == ChatName(n + 1);
      ChatNameInjective(i + 1, n + 1);
    }
  }

  /** "New Chat": a session named after the count of sessions plus one,
      holding the greeting, added last and selected. In a reachable state
      that name is new, so the count grows by one and no session is
      overwritten. */
  function NewChat(s: State): (r: State)
    ensures r.current == ChatName(|s.sessions.keys| + 1)
    ensures r.current in r.sessions.items && r.sessions.items[r.current] == [Greeting]
    ensures Canonical(s) ==>
      && r.sessions.keys == s.sessions.keys + [r.current]
      && |r.sessions.keys| == |s.sessions.keys| + 1
      && (forall k :: k in s.sessions.items ==> k in r.sessions.items && r.sessions.items[k] == s.sessions.items[k])
      && Canonical(r)
      && Grows(s, r)
  {
    var name := ChatName(|s.sessions.keys| + 1);
    AddGreetedSession(s, name);
    State(Put(s.sessions, name, [Greeting]), name)
  }

  /** Adding the next chat name to a canonical state appends it to the key
      list, keeps every existing session, and stays canonical. */
  lemma AddGreetedSession(s: State, name: string)
    requires name == ChatName(|s.sessions.keys| + 1)
    ensures var r := State(Put(s.sessions, name, [Greeting]), name);
      Canonical(s) ==>
        && r.sessions.keys == s.sessions.keys + [name]
        && (forall k :: k in s.sessions.items ==> k in r.sessions.items && r.sessions.items[k] == s.sessions.items[k])
        && Canonical(r)
        && Grows(s, r)
  {
    if Canonical(s) {
      NextNameIsFresh(s);
    }
  }

  /** Chat input: a non-empty input appends the user's message and then the
      echo to the selected session only. */
  function Send(s: State, input: string): (r: State)
    requires s.current in s.sessions.items
    ensures input == "" ==> r == s
    ensures input != "" ==>
      && r.current == s.current
      && r.sessions.keys == s.sessions.keys
      && s.current in r.sessions.items
      && r.sessions.items[s.current] == s.sessions.items[s.current] + Exchange(input)
      && (forall k :: k in s.sessions.items && k != s.current ==> r.sessions.items[k] == s.sessions.items[k])
    ensures Canonical(s) ==> Canonical(r)
    ensures Grows(s, r)
  {
    if input == "" then s
    else State(Put(s.sessions, s.current, s.sessions.items[s.current] + Exchange(input)), s.current)
  }

  /** The events of the page. */
  datatype Event = SelectChat(name: string) | NewChatButton | Input(text: string)

  /** One event applied to the state; a selection of a missing session
      cannot come from the radio button and is ignored. */
  function Step(s: State, e: Event): State
  {
    match e
    case SelectChat(name) => if name in s.sessions.items then Select(s, name) else s
    case NewChatButton => NewChat(s)
    case Input(text) => if s.current in s.sessions.items then Send(s, text) else s
  }

  /** The state after a sequence of events. */
  function Run(s: State, events: seq<Event>): State
    decreases |events|
  {
    if |events| == 0 then s else Run(Step(s, events[0]), events[1..])
  }

  /** Every state the page can reach from a canonical one (first load,
      say) is canonical. */
  lemma {:induction false} ReachableIsCanonical(s: State, events: seq<Event>)
    requires Canonical(s)
    ensures Canonical(Run(s, events))
    decreases |events|
  {
    if |events| > 0 {
      var next := Step(s, events[0]);
      assert Canonical(next);
      ReachableIsCanonical(next, events[1..]);
    }
  }

  /** Along any sequence of events from a canonical state no session
      disappears and no message is lost or changed. */
  lemma {:induction false} EventsOnlyAppend(s: State, events: seq<Event>)
    requires Canonical(s)
    ensures Grows(s, Run(s, events))
    decreases |events|
  {
    if |events| > 0 {
      var next := Step(s, events[0]);
      assert Canonical(next) && Grows(s, next);
      EventsOnlyAppend(next, events[1..]);
      GrowsTransitive(s, next, Run(next, events[1..]));
    }
  }

  lemma GrowsTransitive(a: State, b: State, c: State)
    requires Grows(a, b) && Grows(b, c)
    ensures Grows(a, c)
  {
  }
}

=== FILE: text.dfy ===
/** The Python string operations the repository relies on: `sep.join`,
    `s.split(sep)`, `s.strip()`, slicing `s[n:]` and `f"{n}"` for a
    natural number. Strings are sequences of code points, as in Python 3. */
module Text {
  import opened Wrappers

  // ---------------------------------------------------------------------------
  // join
  // ---------------------------------------------------------------------------

  /** Python's `sep.join(parts)`. */
  function Join(parts: seq<string>, sep: string): string
  {
    if |parts| == 0 then ""
    else if |parts| == 1 then parts[0]
    else parts[0] + sep + Join(parts[1..], sep)
  }

  /** Total length of all parts. */
  function SumLengths(parts: seq<string>): nat
  {
    if |parts| == 0 then 0 else |parts[0]| + SumLengths(parts[1..])
  }

  /** Where part `i` starts inside `Join(parts, sep)`. */
  function Offset(parts: seq<string>, sep: string, i: nat): nat
    requires i <= |parts|
  {
    SumLengths(parts[..i]) + |sep| * i
  }

  /** The joined string is exactly as long as its parts plus one separator
      between each consecutive pair. */
  lemma {:induction false} JoinLength(parts: seq<string>, sep: string)
    requires |parts| > 0
    ensures |Join(parts, sep)| == SumLengths(parts) + |sep| * (|parts| - 1)
  {
    if |parts| > 1 {
      JoinLength(parts[1..], sep);
    }
  }

  lemma {:induction false} SumLengthsSplit(parts: seq<string>, i: nat)
    requires 0 < i <= |parts|
    ensures SumLengths(parts[..i]) == |parts[0]| + SumLengths(parts[1..][..i - 1])
  {
    assert parts[..i][1..] == parts[1..][..i - 1];
  }

  /** Part `i` sits verbatim at `Offset(parts, sep, i)`, and unless it is the
      last part it is followed by exactly one separator: the parts appear in
      order with one separator between consecutive parts. */
  lemma {:induction false} JoinPlaces(parts: seq<string>, sep: string, i: nat)
    requires i < |parts|
    ensures Offset(parts, sep, i) + |parts[i]| <= |Join(parts, sep)|
    ensures Join(parts, sep)[Offset(parts, sep, i)..Offset(parts, sep, i) + |parts[i]|] == parts[i]
    ensures i + 1 < |parts| ==>
              Offset(parts, sep, i) + |parts[i]| + |sep| <= |Join(parts, sep)| &&
              Join(parts, sep)[Offset(parts, sep, i) + |parts[i]|..Offset(parts, sep, i) + |parts[i]| + |sep|] == sep
  {
    var r := Join(parts, sep);
    if i == 0 {
      assert parts[..0] == [];
      if |parts| > 1 {
        var tail := Join(parts[1..], sep);
        assert r == parts[0] + (sep + tail);
        SliceAfterPrefix(parts[0], sep + tail, 0, |sep|);
      }
    } else {
      var rest := parts[1..];
      var tail := Join(rest, sep);
      var a := parts[0] + sep;
      assert r == a + tail;
      JoinPlaces(rest, sep, i - 1);
      SumLengthsSplit(parts, i);
      var o := Offset(rest, sep, i - 1);
      MulStep(|sep|, i);
      assert Offset(parts, sep, i) == |a| + o;
      assert rest[i - 1] == parts[i];
      SliceAfterPrefix(a, tail, o, o + |parts[i]|);
      if i + 1 < |parts| {
        SliceAfterPrefix(a, tail, o + |parts[i]|, o + |parts[i]| + |sep|);
      }
    }
  }

  lemma MulStep(a: nat, i: nat)
    requires i > 0
    ensures a * i == a + a * (i - 1)
  {
  }

  /** A slice of the text after a prefix is a slice of `a + t`, shifted by `|a|`. */
  lemma SliceAfterPrefix(a: string, t: string, x: nat, y: nat)
    requires x <= y <= |t|
    ensures (a + t)[|a| + x..|a| + y] == t[x..y]
  {
    assert (a + t)[|a|..] == t;
  }

  /** Prepending a part to a non-empty list prepends the part and one separator. */
  lemma JoinCons(x: string, parts: seq<string>, sep: string)
    requires |parts| > 0
    ensures Join([x] + parts, sep) == x + sep + Join(parts, sep)
  {
    assert ([x] + parts)[1..] == parts;
  }

  /** Appending a part appends one separator and the part. */
  lemma {:induction false} JoinSnoc(parts: seq<string>, sep: string, x: string)
    requires |parts| > 0
    ensures Join(parts + [x], sep) == Join(parts, sep) + sep + x
  {
    if |parts| == 1 {
      assert (parts + [x])[1..] == [x];
    } else {
      assert (parts + [x])[1..] == parts[1..] + [x];
      JoinSnoc(parts[1..], sep, x);
    }
  }

  // ---------------------------------------------------------------------------
  // occurrences and split
  // ---------------------------------------------------------------------------

  /** `p` occurs in `s` starting at index `i`. */
  predicate OccursAt(s: string, p: string, i: nat)
  {
    i + |p| <= |s| && s[i..i + |p|] == p
  }

  /** Python's `p in s`. */
  predicate Contains(s: string, p: string)
  {
    exists i: nat :: i <= |s| && OccursAt(s, p, i)
  }

  /** Every index at which `p` occurs in `s`. */
  function Occurrences(s: string, p: string): set<nat>
  {
    set i: nat | i <= |s| && OccursAt(s, p, i)
  }

  /** `s` ends with `p` (Python's `s.endswith(p)`). */
  predicate EndsWith(s: string, p: string)
  {
    |p| <= |s| && s[|s| - |p|..] == p
  }

  /** The first index at or after `k` where `p` occurs (Python's `s.find(p, k)`). */
  function FindFrom(s: string, p: string, k: nat): (r: Option<nat>)
    requires k <= |s|
    ensures r.Some? ==> k <= r.value && OccursAt(s, p, r.value)
    ensures r.Some? ==> forall j: nat :: k <= j < r.value ==> !OccursAt(s, p, j)
    ensures r.None? ==> forall j: nat :: k <= j ==> !OccursAt(s, p, j)
    decreases |s| - k
  {
    if k + |p| > |s| then None
    else if s[k..k + |p|] == p then Some(k)
    else FindFrom(s, p, k + 1)
  }

  /** The first index where `p` occurs; `None` exactly when `p` is not in `s`. */
  function Find(s: string, p: string): (r: Option<nat>)
    ensures r.None? <==> !Contains(s, p)
    ensures r.Some? ==> OccursAt(s, p, r.value) && forall j: nat :: j < r.value ==> !OccursAt(s, p, j)
  {
    FindFrom(s, p, 0)
  }

  /** Python's `s.split(sep)` for a non-empty separator: cut at the leftmost
      occurrence, then split what follows it. */
  function Split(s: string, sep: string): (r: seq<string>)
    requires |sep| > 0
    ensures |r| >= 1
    decreases |s|
  {
    match Find(s, sep)
    case None => [s]
    case Some(i) => [s[..i]] + Split(s[i + |sep|..], sep)
  }

  /** Unfolds one step of `Split` at the leftmost occurrence `i`. */
  lemma SplitStep(s: string, sep: string, i: nat)
    requires |sep| > 0 && Find(s, sep) == Some(i)
    ensures Split(s, sep) == [s[..i]] + Split(s[i + |sep|..], sep)
  {
  }

  /** Joining the pieces of a split with the same separator gives back the
      original string. */
  lemma {:induction false} SplitJoin(s: string, sep: string)
    requires |sep| > 0
    ensures Join(Split(s, sep), sep) == s
    decreases |s|
  {
    var f := Find(s, sep);
    if f.Some? {
      var i := f.value;
      var rest := s[i + |sep|..];
      SplitJoin(rest, sep);
      var qs := Split(rest, sep);
      SplitStep(s, sep, i);
      JoinCons(s[..i], qs, sep);
      assert s[i..i + |sep|] == sep;
      assert s == s[..i] + sep + rest;
    }
  }

  /** No piece of a split contains the separator. */
  lemma {:induction false} SplitPiecesFree(s: string, sep: string)
    requires |sep| > 0
    ensures forall k :: 0 <= k < |Split(s, sep)| ==> !Contains(Split(s, sep)[k], sep)
    decreases |s|
  {
    var f := Find(s, sep);
    var ps := Split(s, sep);
    if f.Some? {
      var i := f.value;
      var rest := s[i + |sep|..];
      SplitPiecesFree(rest, sep);
      SplitStep(s, sep, i);
      var head := s[..i];
      forall j: nat | j <= |head| && OccursAt(head, sep, j)
        ensures false
      {
        assert s[j..j + |sep|] == head[j..j + |sep|];
        assert OccursAt(s, sep, j);
      }
      assert ps[0] == head;
      assert forall k :: 1 <= k < |ps| ==> ps[k] == Split(rest, sep)[k - 1];
    } else {
      assert ps == [s];
    }
  }

  /** Python's `s.split(sep)[-1]`. */
  function LastPiece(s: string, sep: string): string
    requires |sep| > 0
  {
    var ps := Split(s, sep);
    ps[|ps| - 1]
  }

  /** The last piece is the text after the last occurrence of the separator:
      it is a suffix of `s` free of `sep`; it is all of `s` when `sep` does not
      occur, and otherwise it is immediately preceded by `sep`. */
  lemma LastPieceIsTextAfterLastSeparator(s: string, sep: string)
    requires |sep| > 0
    ensures var t := LastPiece(s, sep);
      && |t| <= |s| && s[|s| - |t|..] == t
      && !Contains(t, sep)
      && (!Contains(s, sep) ==> t == s)
      && (Contains(s, sep) ==> |t| + |sep| <= |s| && OccursAt(s, sep, |s| - |t| - |sep|))
  {
    var ps := Split(s, sep);
    var t := ps[|ps| - 1];
    SplitPiecesFree(s, sep);
    SplitJoin(s, sep);
    if |ps| == 1 {
      assert Find(s, sep).None?;
      assert s == t;
    } else {
      var init := ps[..|ps| - 1];
      assert ps == init + [t];
      JoinSnoc(init, sep, t);
      var a := Join(init, sep);
      assert s == a + sep + t;
      assert s[|a|..|a| + |sep|] == sep;
      assert OccursAt(s, sep, |a|);
      assert s[|s| - |t|..] == t;
    }
  }

  // ---------------------------------------------------------------------------
  // strip and slicing
  // ---------------------------------------------------------------------------

  /** Python's `str.isspace` for one code point: the characters `str.strip()`
      removes when called without arguments. */
  predicate IsSpace(c: char)
  {
    || ('\t' <= c <= '\r')
    || ('\U{1C}' <= c <= ' ')
    || c == '\U{85}' || c == '\U{A0}' || c == '\U{1680}'
    || ('\U{2000}' <= c <= '\U{200A}')
    || c == '\U{2028}' || c == '\U{2029}' || c == '\U{202F}' || c == '\U{205F}' || c == '\U{3000}'
  }

  /** Every character of `t` is whitespace. */
  predicate AllSpace(t: string)
  {
    forall c :: c in t ==> IsSpace(c)
  }

  /** How many whitespace characters `s` starts with. */
  function LeadingSpaces(s: string): (n: nat)
    ensures n <= |s| && AllSpace(s[..n])
    ensures n < |s| ==> !IsSpace(s[n])
  {
    if |s| > 0 && IsSpace(s[0]) then
      var m := LeadingSpaces(s[1..]);
      assert s[..m + 1] == [s[0]] + s[1..][..m];
      m + 1
    else 0
  }

  /** Where the whitespace `s` ends with begins. */
  function TrailingEnd(s: string): (n: nat)
    ensures n <= |s| && AllSpace(s[n..])
    ensures n > 0 ==> !IsSpace(s[n - 1])
  {
    if |s| > 0 && IsSpace(s[|s| - 1]) then
      var m := TrailingEnd(s[..|s| - 1]);
      assert s[m..] == s[..|s| - 1][m..] + [s[|s| - 1]];
      m
    else |s|
  }

  /** Python's `s.strip()`: `s` is whitespace, then the result, then
      whitespace, and the result neither starts nor ends with whitespace. */
  function Strip(s: string): (r: string)
    ensures var i := LeadingSpaces(s);
      && i + |r| <= |s| && r == s[i..i + |r|]
      && AllSpace(s[..i]) && AllSpace(s[i + |r|..])
    ensures r == [] || (!IsSpace(r[0]) && !IsSpace(r[|r| - 1]))
  {
    var i := LeadingSpaces(s);
    if i == |s| then ""
    else
      var j := TrailingEnd(s);
      assert i < j by {
        forall k | j <= k < |s|
          ensures IsSpace(s[k])
        {
          assert s[k] in s[j..];
        }
      }
      s[i..j]
  }

  /** Python's `s[n:]` for `n >= 0`: empty once `n` reaches the length. */
  function Drop(s: string, n: nat): string
  {
    if n >= |s| then "" else s[n..]
  }

  // ---------------------------------------------------------------------------
  // decimal rendering of naturals
  // ---------------------------------------------------------------------------

  function DigitChar(d: nat): char
    requires d < 10
  {
    "0123456789"[d]
  }

  function DigitValue(c: char): nat
  {
    if '0' <= c <= '9' then (c as int - '0' as int) as nat else 0
  }

  /** Python's `f"{n}"` for a natural number: decimal digits, no leading zero. */
  function NatToString(n: nat): (r: string)
    ensures |r| > 0
    ensures forall i :: 0 <= i < |r| ==> '0' <= r[i] <= '9'
  {
    if n < 10 then [DigitChar(n)] else NatToString(n / 10) + [DigitChar(n % 10)]
  }

  /** Python's `int(s)` on a string of decimal digits. */
  function ParseNat(s: string): nat
  {
    if |s| == 0 then 0 else ParseNat(s[..|s| - 1]) * 10 + DigitValue(s[|s| - 1])
  }

  /** Reading back the decimal rendering of `n` gives `n`. */
  lemma {:induction false} ParseNatToString(n: nat)
    ensures ParseNat(NatToString(n)) == n
  {
    var s := NatToString(n);
    if n >= 10 {
      ParseNatToString(n / 10);
      assert s[..|s| - 1] == NatToString(n / 10);
    }
  }

  /** Distinct numbers render as distinct strings. */
  lemma NatToStringInjective(a: nat, b: nat)
    requires NatToString(a) == NatToString(b)
    ensures a == b
  {
    ParseNatToString(a);
    ParseNatToString(b);
  }
}

=== FILE: wrappers.dfy ===
/** Result types shared by every module of the model. */
module Wrappers {

  /** A value that may be absent; Python's `None` is `None` here. */
  datatype Option<+T> = None | Some(value: T)

  /** The outcome of a call that may raise: `Failure` carries the exception. */
  datatype Result<+R, +E> = Success(value: R) | Failure(error: E)
}
